=== FILE: README.md ===
# btc-e.js client core in Dafny

This project models the decision logic of `BTCExchange`, a small promise-based
client for the BTC-e exchange HTTP API (`index.js`). It covers three parts.

- **Authenticated payload assembly** (module `Signer`). `nonce` turns a
  millisecond clock reading into a nonce. `buildPayload` overlays the caller's
  parameters with `method` and `nonce`. `sign` takes the keyed digest of the
  form encoding of those merged parameters. The form encoder
  (`querystring.stringify`) and the HMAC-SHA512 hex digest are abstract
  deterministic functions, held in a `Codec` value that is passed in.
- **Transport replies and promise outcomes** (modules `Transport`, `Promises`,
  `Exchange`). `_get` and `_post` share one status mapping. The callbacks of
  `publicV3ApiRequest` and `tradeApiRequest` are modelled as the sequence of
  `reject`/`resolve` calls they make. A promise's settle-once rule then turns
  that sequence into one outcome: `Resolved(data)` or `Rejected(reason)`.
- **Endpoints** (module `Endpoints`). Each endpoint becomes a function that
  returns its sub-path or API method name together with its parameter map.
  JavaScript default parameters are applied exactly where the code applies
  them. An omitted argument is `Undefined`, and an `undefined` value stays in
  the map.

JavaScript values (`JsValues.Value`) carry the three pieces of language
semantics the code relies on: truthiness, `a || b`, and `v == 1` (loose
equality).

## Behaviour worth knowing

- Omitted private parameters are not dropped. `tradeHistory()` and
  `transHistory()` keep `end_id` and `end` in the signed parameter map with
  value `undefined` (`Endpoints.TradeHistoryDefaults`).
- There is no last-nonce tracking. Two calls in the same 100 ms tick get the
  same nonce (`Signer.NonceRepeatsWithinTick`).
- Public GETs always append `"?"` and the encoding of the parameters, even for
  `{}` (`Endpoints.PublicEndpointUrls`).
- The error callbacks call `reject` and then `resolve`. Under promise semantics
  the first call wins, so success and failure are already mutually exclusive
  (`Promises.FirstCallWins`, `Exchange.PublicOutcome`).
- Credentials are not checked before a call. A client constructed without a
  secret reaches `crypto.createHmac('sha512', undefined)` inside
  `buildPayload`, which throws. That happens in `tradeApiRequest` before the
  promise is created, so the call throws instead of returning a rejected
  promise (see "Left out").
- The encoder sees an unordered map. The code's `querystring.stringify`
  follows insertion order, and the abstract encoder hides this.

## Model

| member | source | states |
|---|---|---|
| Signer.Round | index.js:92 | `Math.round` gives the integer within half a unit of its argument, with halves rounded up |
| Signer.RoundTicks | index.js:92 | for every whole number of milliseconds `t`, rounding `t/100` equals `(t+50) div 100` |
| Signer.Nonce | index.js:91-93 | the nonce is `(t+50) div 100 - 12000000000` for every integer clock reading, negative ones included |
| Signer.NonceMonotone | index.js:91-93 | a later clock reading never yields a smaller nonce |
| Signer.NonceAdvancesPerTick | index.js:91-93 | readings at least 100 ms apart yield strictly increasing nonces |
| Signer.NonceRepeatsWithinTick | index.js:91-93 | the next millisecond repeats the nonce exactly when `t` is not the last millisecond of its tick, so nothing prevents duplicates |
| Signer.Merge | index.js:107 | merged keys are the caller's keys plus `method` and `nonce`; those two take the new values and override the caller's; every other caller key keeps its value |
| Signer.BuildPayload | index.js:105-117 | the payload carries the merged parameters with `method` and the clock's nonce; `Sign` is the HMAC under the secret of the encoding of exactly those parameters; `Key` is the API key |
| Signer.PayloadIgnoresCallerOverrides | index.js:105-108 | a caller-supplied `method` or `nonce` entry changes neither the keys nor the values of the parameter map that is signed and sent |
| Transport.MapStatus | index.js:127-130 | the status mapping shared by `_get` and `_post` (same code at lines 144-147): a transport error passes through unchanged; otherwise an error is synthesised iff `status` is truthy and not `"OK"`, with message `description`, falling back to `error_message`; data is the body or `{}` |
| JsValues.LooseEqualsOne | index.js:81 | `v == 1` as in `data.success != 1`: numbers by value, booleans as 0/1, a one-element non-boolean array as its element; undefined, null and objects never; every value equal to 1 is truthy |
| Transport.GetRequest | index.js:120 | a GET URL splits at the `?` after `apiHost + path` into that endpoint and the encoded query |
| Transport.PostRequest | index.js:135-142 | a POST goes to `apiHost + path` with the payload's `Key`; a `Sign` that checks against the encoding of the payload's parameters also checks against the form string passed to `request.post` |
| Exchange.New | index.js:6-17 | a new client uses host `https://btc-e.nz`, public path `/api/3` and private path `/tapi`, and keeps the key and secret it was given |
| Exchange.PublicV3ApiRequest | index.js:35-37 | a public call GETs `apiHost + publicPath + "/" + path + "?" + encode(params)` (URL assembled at line 120) |
| Exchange.TradeApiRequest | index.js:76-80 | a private call POSTs to `apiHost + privatePath`; the form string passed to `request.post` is the encoding of the merged parameters; the `Sign` header is the HMAC of that same string; `Key` is the API key |
| Exchange.PublicSettlements | index.js:38-41 | the public callback calls `reject` with the error exactly when there is one (an `Error` is truthy, so `error || data` is the error), and always ends with `resolve(data)` |
| Exchange.PrivateSettlements | index.js:81-84 | the private callback calls `reject` first exactly when there is an error or `success != 1`, with the error or else `data.error`, and always ends with `resolve(data)` |
| Exchange.PublicOutcome | index.js:35-46 | a public call is rejected with the transport error when there is one; otherwise it is rejected with the synthesised status error iff the status is not OK; otherwise it resolves with the body; the trailing `resolve` never overrides a rejection |
| Exchange.PrivateOutcome | index.js:76-89 | a private call is rejected with the transport error first, then with the status error, then with `data.error` when `success != 1`; it resolves with the body iff no error and `success == 1` |
| Promises.RunSettled | index.js:37-41 | once a promise is settled, no later `resolve`/`reject` call changes it |
| Promises.FirstCallWins | index.js:80-84 | a pending promise ends as its first `resolve`/`reject` call says |
| Endpoints.PublicUrl | index.js:35-37 | on a new client, every public endpoint path is requested under `https://btc-e.nz/api/3/` with the encoded query after `?` |
| Endpoints.PublicEndpointUrls | index.js:19-33 | the exact URLs of `v3info`, `v3ticker(p)`, `v3depth(p, l)` and `v3trades(p, l)` |
| Endpoints.PublicEndpointDefaults | index.js:23-33 | omitted arguments default to pair `btc_usd` and `{limit: 150}` |
| Endpoints.PrivateEndpointUrl | index.js:134-135 | every private endpoint posts to `https://btc-e.nz/tapi` |
| Endpoints.PrivateEndpointCalls | index.js:48-66 | the method name and exact parameter map of `getInfo`, `trade` (pair, type, rate, amount each holding its argument), `activeOrders` (pair, defaulting to `""`), `orderInfo` and `cancelOrder` (`order_id`) |
| Endpoints.TradeHistoryDefaults | index.js:68-70 | `tradeHistory()` signs and sends from=0, count=1000, from_id=0, order="DESC", since=0, pair="", with end_id and end present as `undefined`, plus method and nonce |
| Endpoints.TransHistoryDefaults | index.js:72-74 | `transHistory()` sends the same filters without `pair` |
| Endpoints.TradeRejectedForFunds | index.js:52-54 | a buy order signs exactly its four fields with method and nonce; a reply `{success: 0, error: "Insufficient funds"}` rejects with that message although the transport succeeded |
| Endpoints.CancelOrderNetworkError | index.js:64-66 | `cancelOrder(id)` signs and sends exactly `order_id`, method and nonce; a network error rejects it with that error, whatever body accompanies it |

## Left out

- The HMAC-SHA512 digest and `querystring.stringify` are abstract functions (`Signer.Codec`). Properties that need them to be injective are not stated. One example is that the signature changes whenever a parameter changes.
- The `request` library is not modelled: HTTP, TLS (`strictSSL`) and JSON parsing. The (error, body) pair it hands to the callback is an input. A body that is not a JSON object is not modelled. The library may re-escape the characters `!'()*` in a string form before sending it. `querystring.stringify` leaves those characters alone, so the bytes on the wire can differ from the signed string. For example, a pair `a(b)` is signed as `a(b)` but may be sent as `a%28b%29`. This is not modelled: the model proves signed-equals-sent only for the string index.js builds and passes to `request.post` (index.js:141).
- The wall clock is a parameter `t` (milliseconds) in place of `new Date().getTime()`.
- Asynchronous scheduling is not modelled, and neither are concurrent calls. Each call's outcome is a pure function of what the transport returned.
- Numbers are exact reals, and IEEE-754 rounding of `t / 100` is not modelled. `NaN` and `-0` are not representable.
- JsValues.LooseEqualsOne: among strings, only `"1"` itself is loosely equal to 1, and so is a one-element array only through that string. JavaScript's `v == 1` also holds for `"1.0"`, `" 1"`, `"01"`, `"0x1"` and `"1e0"`, and for `["1.0"]`. String-to-number conversion is not modelled.
- Signer.Sign: the HMAC and the encoder are both abstract, so `sign` is by definition the digest of the encoding and has no contract of its own. Its property, that the `Sign` header checks against the encoded parameters and the form string passed to `request.post`, is stated by Signer.BuildPayload and Exchange.TradeApiRequest.
- Signer.PayloadIgnoresCallerOverrides: states only that the signed parameter map is unchanged, not the signature. `extend` overwrites a caller's `method`/`nonce` in place, so the key keeps its earlier position, and `querystring.stringify` follows insertion order. The signed string, and so the HMAC, can therefore differ in index.js. The model's encoder takes an unordered map and cannot express this.
- Exchange.PrivateOutcome: among strings, only `"1"` itself counts as loosely equal to 1 (`data.success != 1`). JavaScript also accepts other numeric spellings of one, such as `"1.0"`, `" 1"` or `"1e0"`. String-to-number conversion is not modelled.
- Transport.MapStatus: a missing body with no transport error is a precondition. The code reads `body.status` before its `body || {}` default and would throw there. The same precondition applies to Exchange.PublicOutcome and Exchange.PrivateOutcome.
- The message of a synthesised `Error` is kept as the raw value of `description || error_message`. Its conversion to a string is not modelled.
- `v3ticker`, `v3depth` and `v3trades` take the pair as an optional string. Non-string arguments would be converted by JavaScript string concatenation, which is not modelled.
- `Signer.Credentials` holds two strings, so a missing (`undefined`) key or secret cannot be represented. Without a secret the HMAC call at index.js:98 throws out of `tradeApiRequest` (index.js:77) before any promise exists; that synchronous throw is not modelled.
- `module.exports`, and reassigning `apiHost`/paths after construction, are not modelled. A `Client` value may still hold any host and paths.

=== FILE: endpoints.dfy ===
/** One function per API endpoint: the sub-path or method name it uses and
    the parameter map it builds, with the JavaScript default parameters. An
    argument the caller leaves out is `Undefined`. */
module Endpoints {
  import opened JsValues
  import opened Promises
  import opened Signer
  import opened Transport
  import opened Exchange

  /** A public v3 call: the path below the public prefix and the query parameters. */
  datatype PublicCall = PublicCall(path: string, params: Params)

  /** A private call: the API method name and the caller's parameters. */
  datatype PrivateCall = PrivateCall(apiMethod: string, params: Params)

  const DefaultPair: string := "btc_usd"

  function PairOrDefault(ticker: Option<string>): (pair: string)
  {
    if ticker.Some? then ticker.value else DefaultPair
  }

  function V3Info(): (call: PublicCall)
  {
    PublicCall("info", map[])
  }

  function V3Ticker(ticker: Option<string>): (call: PublicCall)
  {
    PublicCall("ticker/" + PairOrDefault(ticker), map[])
  }

  function V3Depth(ticker: Option<string>, limit: Value): (call: PublicCall)
  {
    PublicCall("depth/" + PairOrDefault(ticker), map["limit" := Default(limit, Num(150.0))])
  }

  function V3Trades(ticker: Option<string>, limit: Value): (call: PublicCall)
  {
    PublicCall("trades/" + PairOrDefault(ticker), map["limit" := Default(limit, Num(150.0))])
  }

  function GetInfo(): (call: PrivateCall)
  {
    PrivateCall("getInfo", map[])
  }

  /** `trade(pair, type, rate, amount)`: no defaults. */
  function PlaceOrder(pair: Value, side: Value, rate: Value, amount: Value): (call: PrivateCall)
  {
    PrivateCall("Trade", map["pair" := pair, "type" := side, "rate" := rate, "amount" := amount])
  }

  function ActiveOrders(pair: Value): (call: PrivateCall)
  {
    PrivateCall("ActiveOrders", map["pair" := Default(pair, Str(""))])
  }

  function OrderInfo(orderId: Value): (call: PrivateCall)
  {
    PrivateCall("OrderInfo", map["order_id" := orderId])
  }

  function CancelOrder(orderId: Value): (call: PrivateCall)
  {
    PrivateCall("CancelOrder", map["order_id" := orderId])
  }

  /** The history filters shared by `tradeHistory` and `transHistory`;
      `end_id` and `end` have no default and stay `undefined` when omitted. */
  function HistoryParams(from: Value, count: Value, fromId: Value, endId: Value,
                         order: Value, since: Value, end: Value): (params: Params)
  {
    map["from" := Default(from, Num(0.0)), "count" := Default(count, Num(1000.0)),
        "from_id" := Default(fromId, Num(0.0)), "end_id" := endId,
        "order" := Default(order, Str("DESC")), "since" := Default(since, Num(0.0)),
        "end" := end]
  }

  function TradeHistory(from: Value, count: Value, fromId: Value, endId: Value,
                        order: Value, since: Value, end: Value, pair: Value): (call: PrivateCall)
  {
    PrivateCall("TradeHistory",
      HistoryParams(from, count, fromId, endId, order, since, end)["pair" := Default(pair, Str(""))])
  }

  function TransHistory(from: Value, count: Value, fromId: Value, endId: Value,
                        order: Value, since: Value, end: Value): (call: PrivateCall)
  {
    PrivateCall("TransHistory", HistoryParams(from, count, fromId, endId, order, since, end))
  }

  function IssuePublic(codec: Codec, c: Client, call: PublicCall): (r: Request)
  {
    PublicV3ApiRequest(codec, c, call.path, call.params)
  }

  function IssuePrivate(codec: Codec, c: Client, call: PrivateCall, t: int): (r: Request)
  {
    TradeApiRequest(codec, c, call.apiMethod, call.params, t)
  }

  /** A freshly constructed client requests public endpoint `path` at the
      v3 prefix of the fixed host, with the encoded query after a "?". */
  lemma PublicUrl(codec: Codec, key: string, secret: string, call: PublicCall)
    ensures IssuePublic(codec, New(key, secret), call).url
      == "https://btc-e.nz/api/3/" + call.path + "?" + codec.stringify(call.params)
  {
    var prefix: string := "https://btc-e.nz/api/3/";
    assert ApiHost + PublicV3 + "/" == prefix;
    assert ApiHost + (PublicV3 + "/" + call.path) == prefix + call.path;
  }

  /** The URLs of the four public endpoints. */
  lemma PublicEndpointUrls(codec: Codec, key: string, secret: string, pair: string, limit: Value)
    ensures IssuePublic(codec, New(key, secret), V3Info()).url
      == "https://btc-e.nz/api/3/info?" + codec.stringify(map[])
    ensures IssuePublic(codec, New(key, secret), V3Ticker(Some(pair))).url
      == "https://btc-e.nz/api/3/ticker/" + pair + "?" + codec.stringify(map[])
    ensures IssuePublic(codec, New(key, secret), V3Depth(Some(pair), limit)).url
      == "https://btc-e.nz/api/3/depth/" + pair + "?" + codec.stringify(map["limit" := Default(limit, Num(150.0))])
    ensures IssuePublic(codec, New(key, secret), V3Trades(Some(pair), limit)).url
      == "https://btc-e.nz/api/3/trades/" + pair + "?" + codec.stringify(map["limit" := Default(limit, Num(150.0))])
  {
    var prefix: string := "https://btc-e.nz/api/3/";
    PublicUrl(codec, key, secret, V3Info());
    assert prefix + "info" + "?" == "https://btc-e.nz/api/3/info?";
    PublicUrl(codec, key, secret, V3Ticker(Some(pair)));
    assert prefix + ("ticker/" + pair) == "https://btc-e.nz/api/3/ticker/" + pair;
    PublicUrl(codec, key, secret, V3Depth(Some(pair), limit));
    assert prefix + ("depth/" + pair) == "https://btc-e.nz/api/3/depth/" + pair;
    PublicUrl(codec, key, secret, V3Trades(Some(pair), limit));
    assert prefix + ("trades/" + pair) == "https://btc-e.nz/api/3/trades/" + pair;
  }

  /** Omitted public arguments fall back to pair "btc_usd" and limit 150. */
  lemma PublicEndpointDefaults()
    ensures V3Ticker(None).path == "ticker/btc_usd"
    ensures V3Depth(None, Undefined) == PublicCall("depth/btc_usd", map["limit" := Num(150.0)])
    ensures V3Trades(None, Undefined) == PublicCall("trades/btc_usd", map["limit" := Num(150.0)])
  {
  }

  /** Every private endpoint posts to the private path of the client. */
  lemma PrivateEndpointUrl(codec: Codec, key: string, secret: string, call: PrivateCall, t: int)
    ensures IssuePrivate(codec, New(key, secret), call, t).url == "https://btc-e.nz/tapi"
  {
  }

  /** The method name each private endpoint sends, and the parameters of the
      endpoints that take at most one argument. */
  lemma PrivateEndpointCalls(pair: Value, side: Value, rate: Value, amount: Value, orderId: Value)
    ensures GetInfo() == PrivateCall("getInfo", map[])
    ensures PlaceOrder(pair, side, rate, amount)
      == PrivateCall("Trade", map["pair" := pair, "type" := side, "rate" := rate, "amount" := amount])
    ensures ActiveOrders(Undefined) == PrivateCall("ActiveOrders", map["pair" := Str("")])
    ensures pair != Undefined ==> ActiveOrders(pair) == PrivateCall("ActiveOrders", map["pair" := pair])
    ensures OrderInfo(orderId) == PrivateCall("OrderInfo", map["order_id" := orderId])
    ensures CancelOrder(orderId) == PrivateCall("CancelOrder", map["order_id" := orderId])
  {
  }

  /** `tradeHistory()` with every argument omitted signs and sends exactly
      these ten parameters, `end_id` and `end` included as `undefined`. */
  lemma TradeHistoryDefaults(codec: Codec, c: Client, t: int)
    ensures IssuePrivate(codec, c, TradeHistory(Undefined, Undefined, Undefined, Undefined,
                                                Undefined, Undefined, Undefined, Undefined), t).form
      == codec.stringify(map["from" := Num(0.0), "count" := Num(1000.0), "from_id" := Num(0.0),
                             "end_id" := Undefined, "order" := Str("DESC"), "since" := Num(0.0),
                             "end" := Undefined, "pair" := Str(""),
                             "method" := Str("TradeHistory"), "nonce" := Num(Nonce(t) as real)])
  {
    var call := TradeHistory(Undefined, Undefined, Undefined, Undefined, Undefined, Undefined, Undefined, Undefined);
    var sent := map["from" := Num(0.0), "count" := Num(1000.0), "from_id" := Num(0.0),
                    "end_id" := Undefined, "order" := Str("DESC"), "since" := Num(0.0),
                    "end" := Undefined, "pair" := Str(""),
                    "method" := Str("TradeHistory"), "nonce" := Num(Nonce(t) as real)];
    var merged := Merge(call.params, call.apiMethod, Nonce(t));
    assert merged.Keys == sent.Keys;
    assert merged == sent;
  }

  /** `transHistory()` with every argument omitted: the same filters without `pair`. */
  lemma TransHistoryDefaults(codec: Codec, c: Client, t: int)
    ensures IssuePrivate(codec, c, TransHistory(Undefined, Undefined, Undefined, Undefined,
                                                Undefined, Undefined, Undefined), t).form
      == codec.stringify(map["from" := Num(0.0), "count" := Num(1000.0), "from_id" := Num(0.0),
                             "end_id" := Undefined, "order" := Str("DESC"), "since" := Num(0.0),
                             "end" := Undefined,
                             "method" := Str("TransHistory"), "nonce" := Num(Nonce(t) as real)])
  {
    var call := TransHistory(Undefined, Undefined, Undefined, Undefined, Undefined, Undefined, Undefined);
    var sent := map["from" := Num(0.0), "count" := Num(1000.0), "from_id" := Num(0.0),
                    "end_id" := Undefined, "order" := Str("DESC"), "since" := Num(0.0),
                    "end" := Undefined,
                    "method" := Str("TransHistory"), "nonce" := Num(Nonce(t) as real)];
    var merged := Merge(call.params, call.apiMethod, Nonce(t));
    assert merged.Keys == sent.Keys;
    assert merged == sent;
  }

  /** A buy order rejected by the exchange: the signed body carries the four
      order fields with the method and nonce, and the outcome is the
      exchange's error message even though the transport succeeded. */
  lemma TradeRejectedForFunds(codec: Codec, c: Client, t: int)
    ensures IssuePrivate(codec, c, PlaceOrder(Str("btc_usd"), Str("buy"), Num(100.5), Num(0.01)), t).form
      == codec.stringify(map["pair" := Str("btc_usd"), "type" := Str("buy"), "rate" := Num(100.5),
                             "amount" := Num(0.01), "method" := Str("Trade"), "nonce" := Num(Nonce(t) as real)])
    ensures PrivateOutcome(None, Some(Body(map["success" := Num(0.0), "error" := Str("Insufficient funds")])))
      == Rejected(Reported(Str("Insufficient funds")))
  {
    var call := PlaceOrder(Str("btc_usd"), Str("buy"), Num(100.5), Num(0.01));
    var sent := map["pair" := Str("btc_usd"), "type" := Str("buy"), "rate" := Num(100.5),
                    "amount" := Num(0.01), "method" := Str("Trade"), "nonce" := Num(Nonce(t) as real)];
    var merged := Merge(call.params, call.apiMethod, Nonce(t));
    assert merged.Keys == sent.Keys;
    assert merged == sent;
  }

  /** `cancelOrder(id)` signs and sends the order id with its method and
      nonce; a network error then rejects the call with that error, whatever
      body accompanies it. */
  lemma CancelOrderNetworkError(codec: Codec, c: Client, orderId: Value, t: int, cause: string, body: Option<Body>)
    ensures IssuePrivate(codec, c, CancelOrder(orderId), t).form
      == codec.stringify(map["order_id" := orderId, "method" := Str("CancelOrder"), "nonce" := Num(Nonce(t) as real)])
    ensures PrivateOutcome(Some(TransportError(cause)), body) == Rejected(Failed(TransportError(cause)))
  {
    var sent := map["order_id" := orderId, "method" := Str("CancelOrder"), "nonce" := Num(Nonce(t) as real)];
    var merged := Merge(CancelOrder(orderId).params, "CancelOrder", Nonce(t));
    assert merged.Keys == sent.Keys;
    assert merged == sent;
  }
}

=== FILE: exchange.dfy ===
/** The exchange client: its fixed configuration, the two request builders
    every endpoint goes through, and the outcome of each kind of call. */
module Exchange {
  import opened JsValues
  import opened Promises
  import opened Signer
  import opened Transport

  const ApiHost: string := "https://btc-e.nz"
  const PublicV3: string := "/api/3"
  const Trade: string := "/tapi"

  datatype Client = Client(apiHost: string, privatePath: string, publicPath: string, creds: Credentials)

  /** The constructor: the host and both paths are the fixed constants. */
  function New(key: string, secret: string): (c: Client)
    ensures c.apiHost == "https://btc-e.nz"
    ensures c.publicPath == "/api/3" && c.privatePath == "/tapi"
    ensures c.creds.key == key && c.creds.secret == secret
  {
    Client(ApiHost, Trade, PublicV3, Credentials(key, secret))
  }

  /** Why a promise was rejected: an `Error` object, or the value the API
      reported in the body's `error` field (possibly `undefined`). */
  datatype Reason = Failed(err: Error) | Reported(v: Value)

  type CallOutcome = Outcome<Body, Reason>

  /** The GET a public v3 call issues for endpoint `path`. */
  function PublicV3ApiRequest(codec: Codec, c: Client, path: string, params: Params): (r: Request)
    ensures r.Get?
    ensures r.url == c.apiHost + c.publicPath + "/" + path + "?" + codec.stringify(params)
  {
    GetRequest(codec, c.apiHost, c.publicPath + "/" + path, params)
  }

  /** The POST a private call issues at clock reading `t`. The form string
      passed to `request.post` is exactly the string that was signed. */
  function TradeApiRequest(codec: Codec, c: Client, apiMethod: string, params: Params, t: int): (r: Request)
    ensures r.Post?
    ensures r.url == c.apiHost + c.privatePath
    ensures r.form == codec.stringify(Merge(params, apiMethod, Nonce(t)))
    ensures Verifies(codec, c.creds.secret, r.form, r.headers.sign)
    ensures r.headers.key == c.creds.key
  {
    PostRequest(codec, c.apiHost, c.privatePath, BuildPayload(codec, c.creds, params, apiMethod, t))
  }

  /** The calls the public callback makes, in order: `reject(error || data)`
      when there is an error (an `Error` object is always truthy, so the
      reason is the error), then `resolve(data)` unconditionally. */
  function PublicSettlements(reply: Reply): (calls: seq<Settlement<Body, Reason>>)
    ensures 1 <= |calls| <= 2
    // `resolve(data)` is always the last call
    ensures calls[|calls| - 1] == Resolve(reply.data)
    // it is preceded by a rejection exactly when there is an error, carrying that error
    ensures calls[0].Reject? <==> reply.error.Some?
    ensures reply.error.Some? ==> calls[0] == Reject(Failed(reply.error.value))
  {
    (if reply.error.Some? then [Reject(Failed(reply.error.value))] else [])
    + [Resolve(reply.data)]
  }

  /** The calls the private callback makes: `reject(err || data.error)` when
      there is an error or `data.success != 1`, then `resolve(data)`. */
  function PrivateSettlements(reply: Reply): (calls: seq<Settlement<Body, Reason>>)
    ensures 1 <= |calls| <= 2
    // `resolve(data)` is always the last call
    ensures calls[|calls| - 1] == Resolve(reply.data)
    // a rejection comes first exactly when there is an error or success is not 1
    ensures calls[0].Reject? <==> reply.error.Some? || !LooseEqualsOne(reply.data.Get("success"))
    // its reason is the error when there is one, the body's `error` field otherwise
    ensures reply.error.Some? ==> calls[0] == Reject(Failed(reply.error.value))
    ensures reply.error.None? && !LooseEqualsOne(reply.data.Get("success")) ==>
      calls[0] == Reject(Reported(reply.data.Get("error")))
  {
    (if reply.error.Some? || !LooseEqualsOne(reply.data.Get("success"))
     then [Reject(if reply.error.Some? then Failed(reply.error.value) else Reported(reply.data.Get("error")))]
     else [])
    + [Resolve(reply.data)]
  }

  /** The settled outcome of a public call, given what the HTTP layer returned. */
  function PublicOutcome(error: Option<Error>, body: Option<Body>): (o: CallOutcome)
    requires error.Some? || body.Some?
    ensures !o.Pending?
    ensures error.Some? ==> o == Rejected(Failed(error.value))
    ensures error.None? ==> (o.Rejected? <==> StatusNotOk(body.value))
    ensures error.None? && o.Rejected? ==>
      o == Rejected(Failed(StatusError(Or(body.value.Get("description"), body.value.Get("error_message")))))
    ensures o.Resolved? ==> error.None? && o.value == body.value
  {
    var reply := MapStatus(error, body);
    var calls := PublicSettlements(reply);
    FirstCallWins(calls[0], calls[1..]);
    assert calls == [calls[0]] + calls[1..];
    Run(Pending, calls)
  }

  /** The settled outcome of a private call, given what the HTTP layer returned. */
  function PrivateOutcome(error: Option<Error>, body: Option<Body>): (o: CallOutcome)
    requires error.Some? || body.Some?
    ensures !o.Pending?
    // a transport error takes priority over everything in the body
    ensures error.Some? ==> o == Rejected(Failed(error.value))
    // then a status error, over the body's own error field
    ensures error.None? && StatusNotOk(body.value) ==>
      o == Rejected(Failed(StatusError(Or(body.value.Get("description"), body.value.Get("error_message")))))
    // then success != 1, rejected with data.error
    ensures error.None? && !StatusNotOk(body.value) && !LooseEqualsOne(body.value.Get("success")) ==>
      o == Rejected(Reported(body.value.Get("error")))
    // and only a clean reply with success == 1 resolves, with the body
    ensures o.Resolved? <==>
      error.None? && !StatusNotOk(body.value) && LooseEqualsOne(body.value.Get("success"))
    ensures o.Resolved? ==> o.value == body.value
  {
    var reply := MapStatus(error, body);
    var calls := PrivateSettlements(reply);
    FirstCallWins(calls[0], calls[1..]);
    assert calls == [calls[0]] + calls[1..];
    Run(Pending, calls)
  }
}

=== FILE: js_value.dfy ===
/** JavaScript-level values as they appear in request parameters and in parsed
    JSON response bodies, with the three pieces of JavaScript semantics the
    client relies on: truthiness, the `||` operator and loose equality with 1. */
module JsValues {

  datatype Option<+T> = None | Some(value: T)

  /** A JavaScript value. Numbers are modelled as exact reals (no IEEE-754 rounding). */
  datatype Value =
    | Undefined
    | Null
    | Bool(b: bool)
    | Num(n: real)
    | Str(s: string)
    | Arr(items: seq<Value>)
    | Obj(fields: map<string, Value>)

  /** Request parameters: property name to value. An own property whose value is
      `undefined` is still a key of the map. */
  type Params = map<string, Value>

  /** JavaScript truthiness (`!!v`); NaN and -0 are not representable here. */
  predicate Truthy(v: Value)
  {
    match v
    case Undefined => false
    case Null => false
    case Bool(b) => b
    case Num(n) => n != 0.0
    case Str(s) => s != ""
    case Arr(_) => true
    case Obj(_) => true
  }

  /** `a || b`: the left operand when it is truthy, the right one otherwise. */
  function Or(a: Value, b: Value): (r: Value)
    ensures Truthy(r) <==> Truthy(a) || Truthy(b)
  {
    if Truthy(a) then a else b
  }

  /** `v == 1` under JavaScript's abstract equality: booleans and strings are
      converted to numbers, a one-element array to the string of its element,
      and an object's string form is never numeric. Of the strings, only "1"
      itself is recognised (see README). */
  predicate LooseEqualsOne(v: Value)
    // a value loosely equal to 1 is always truthy
    ensures LooseEqualsOne(v) ==> Truthy(v)
    // undefined, null and plain objects are never loosely equal to 1
    ensures LooseEqualsOne(v) ==> !(v.Undefined? || v.Null? || v.Obj?)
    // numbers compare by value, booleans as 0 and 1
    ensures v.Num? ==> (LooseEqualsOne(v) <==> v.n == 1.0)
    ensures v.Bool? ==> (LooseEqualsOne(v) <==> v.b)
    // a one-element array compares as its element does, unless that is a boolean
    ensures v.Arr? && |v.items| == 1 && !v.items[0].Bool? ==> (LooseEqualsOne(v) <==> LooseEqualsOne(v.items[0]))
  {
    match v
    case Undefined => false
    case Null => false
    case Bool(b) => b
    case Num(n) => n == 1.0
    case Str(s) => s == "1"
    case Arr(xs) => |xs| == 1 && !xs[0].Bool? && LooseEqualsOne(xs[0])
    case Obj(_) => false
  }

  /** A parameter left out by the caller arrives as `undefined`, which is what
      a JavaScript default parameter replaces; `null` is not replaced. */
  function Default(v: Value, d: Value): (r: Value)
  {
    if v.Undefined? then d else v
  }
}

=== FILE: promise.dfy ===
/** The settle-once semantics of a Promise: the first `resolve` or `reject`
    decides the outcome and every later call is ignored. */
module Promises {

  datatype Outcome<+T, +R> = Pending | Resolved(value: T) | Rejected(reason: R)

  /** One call of the executor's `resolve` or `reject` continuation. */
  datatype Settlement<+T, +R> = Resolve(value: T) | Reject(reason: R)

  /** The outcome a settlement produces on a pending promise. */
  function Target<T, R>(s: Settlement<T, R>): (o: Outcome<T, R>)
    ensures !o.Pending?
    ensures s.Resolve? <==> o.Resolved?
  {
    match s
    case Resolve(v) => Resolved(v)
    case Reject(e) => Rejected(e)
  }

  function Settle<T, R>(p: Outcome<T, R>, s: Settlement<T, R>): (q: Outcome<T, R>)
    ensures !q.Pending?
  {
    if p.Pending? then Target(s) else p
  }

  /** The outcome after the continuations are called in the order given. */
  function Run<T, R>(p: Outcome<T, R>, calls: seq<Settlement<T, R>>): (o: Outcome<T, R>)
    decreases |calls|
  {
    if |calls| == 0 then p else Run(Settle(p, calls[0]), calls[1..])
  }

  /** Once settled, no sequence of later calls changes a promise. */
  lemma {:induction false} RunSettled<T, R>(p: Outcome<T, R>, calls: seq<Settlement<T, R>>)
    requires !p.Pending?
    ensures Run(p, calls) == p
    decreases |calls|
  {
    if |calls| > 0 {
      RunSettled(Settle(p, calls[0]), calls[1..]);
    }
  }

  /** The first call decides: a pending promise ends as its first settlement says. */
  lemma FirstCallWins<T, R>(s: Settlement<T, R>, rest: seq<Settlement<T, R>>)
    ensures Run(Pending, [s] + rest) == Target(s)
  {
    assert ([s] + rest)[1..] == rest;
    RunSettled(Target(s), rest);
  }
}

=== FILE: signer.dfy ===
/** Nonce generation, parameter merging and request signing for private calls. */
module Signer {
  import opened JsValues

  /** The two foreign collaborators of signing, left abstract: the form
      encoder (`querystring.stringify`) and the keyed digest
      (HMAC-SHA512 rendered as lowercase hex), taking (secret, message). */
  datatype Codec = Codec(stringify: Params -> string, hmac: (string, string) -> string)

  datatype Credentials = Credentials(key: string, secret: string)

  datatype Headers = Headers(sign: string, key: string)

  /** What `buildPayload` returns: the merged parameters and the auth headers. */
  datatype Payload = Payload(params: Params, headers: Headers)

  /** Offset subtracted from the tick count so that nonces start small. */
  const NonceOffset: int := 12000000000

  /** `Math.round`: the nearest integer, halves rounded towards +infinity. */
  function Round(x: real): (n: int)
    ensures n as real - 0.5 <= x < n as real + 0.5
  {
    (x + 0.5).Floor
  }

  /** Rounding a whole number of milliseconds divided by 100 is integer
      division after adding half a tick. */
  lemma RoundTicks(t: int)
    ensures Round(t as real / 100.0) == (t + 50) / 100
  {
    var q := (t + 50) / 100;
    var r := (t + 50) % 100;
    assert t + 50 == 100 * q + r;
    assert t as real / 100.0 + 0.5 == q as real + r as real / 100.0;
  }

  /** The nonce for a wall-clock reading of `t` milliseconds: tenths of a
      second, rounded, minus the offset. */
  function Nonce(t: int): (n: int)
    ensures n == (t + 50) / 100 - NonceOffset
  {
    RoundTicks(t);
    Round(t as real / 100.0) - NonceOffset
  }

  /** A later clock reading never gives a smaller nonce. */
  lemma NonceMonotone(t1: int, t2: int)
    requires t1 <= t2
    ensures Nonce(t1) <= Nonce(t2)
  {
  }

  /** Calls at least one tick (100 ms) apart get strictly increasing nonces. */
  lemma NonceAdvancesPerTick(t1: int, t2: int)
    requires t1 + 100 <= t2
    ensures Nonce(t1) < Nonce(t2)
  {
    assert (t1 + 150) / 100 == (t1 + 50) / 100 + 1;
  }

  /** No last-nonce tracking: two calls in the same tick reuse a nonce, and
      every clock reading shares its nonce with the next millisecond except
      at the last millisecond of a tick. */
  lemma NonceRepeatsWithinTick(t: int)
    ensures (t + 50) % 100 != 99 <==> Nonce(t + 1) == Nonce(t)
  {
    var q := (t + 50) / 100;
    var r := (t + 50) % 100;
    assert t + 50 == 100 * q + r;
    if r != 99 {
      assert t + 51 == 100 * q + (r + 1);
    } else {
      assert t + 51 == 100 * (q + 1);
    }
  }

  /** `extend(data, { apiMethod, nonce })`: the caller's parameters overlaid with
      the method name and the nonce; the overlay wins on a clash. */
  function Merge(data: Params, apiMethod: string, nonce: int): (params: Params)
    ensures params.Keys == data.Keys + {"method", "nonce"}
    ensures params["method"] == Str(apiMethod)
    ensures params["nonce"] == Num(nonce as real)
    ensures forall k :: k in data && k != "method" && k != "nonce" ==> params[k] == data[k]
  {
    data + map["method" := Str(apiMethod), "nonce" := Num(nonce as real)]
  }

  /** The check a `Sign` header must pass: it is the digest, under the
      account's secret, of the given form string. */
  predicate Verifies(codec: Codec, secret: string, body: string, sign: string)
  {
    sign == codec.hmac(secret, body)
  }

  /** `sign`: the keyed digest of the encoded parameters. */
  function Sign(codec: Codec, secret: string, data: Params): (s: string)
  {
    codec.hmac(secret, codec.stringify(data))
  }

  /** `buildPayload(data, apiMethod)` at clock reading `t`. */
  function BuildPayload(codec: Codec, creds: Credentials, data: Params, apiMethod: string, t: int): (p: Payload)
    ensures p.params.Keys == data.Keys + {"method", "nonce"}
    ensures p.params["method"] == Str(apiMethod)
    ensures p.params["nonce"] == Num(((t + 50) / 100 - NonceOffset) as real)
    ensures forall k :: k in data && k != "method" && k != "nonce" ==> p.params[k] == data[k]
    ensures Verifies(codec, creds.secret, codec.stringify(p.params), p.headers.sign)
    ensures p.headers.key == creds.key
  {
    var nonce := Nonce(t);
    var params := Merge(data, apiMethod, nonce);
    Payload(params, Headers(Sign(codec, creds.secret, params), creds.key))
  }

  /** The caller's own `method` or `nonce` entry leaves no trace in the
      parameters that are signed and sent. */
  lemma PayloadIgnoresCallerOverrides(codec: Codec, creds: Credentials, data: Params, v: Value, apiMethod: string, t: int)
    ensures BuildPayload(codec, creds, data["method" := v], apiMethod, t).params == BuildPayload(codec, creds, data, apiMethod, t).params
    ensures BuildPayload(codec, creds, data["nonce" := v], apiMethod, t).params == BuildPayload(codec, creds, data, apiMethod, t).params
  {
    var m := map["method" := Str(apiMethod), "nonce" := Num(Nonce(t) as real)];
    assert data["method" := v] + m == data + m;
    assert data["nonce" := v] + m == data + m;
  }
}

=== FILE: transport.dfy ===
/** The two transport wrappers `_get` and `_post`: how the request is put on
    the wire, and how the (error, body) pair the HTTP layer hands back is
    turned into the (error, data) pair given to the caller's callback. */
module Transport {
  import opened JsValues
  import opened Signer

  /** An error reaching a callback: one raised by the HTTP layer (connection,
      TLS, DNS), or one synthesised from an API status field, whose message is
      the JavaScript value passed to `new Error`. */
  datatype Error = TransportError(cause: string) | StatusError(message: Value)

  /** A parsed JSON response object; a missing property reads as `undefined`. */
  datatype Body = Body(fields: map<string, Value>) {
    function Get(name: string): (v: Value)
    {
      if name in fields then fields[name] else Undefined
    }
  }

  const EmptyBody: Body := Body(map[])

  /** What the wrapper passes to its callback. */
  datatype Reply = Reply(error: Option<Error>, data: Body)

  /** What goes on the wire: a GET to a URL, or a form POST with auth headers. */
  datatype Request = Get(url: string) | Post(url: string, form: string, headers: Headers)

  /** A reply whose `status` is present (truthy) and not "OK" reports an API failure. */
  predicate StatusNotOk(b: Body)
  {
    Truthy(b.Get("status")) && b.Get("status") != Str("OK")
  }

  /** The status mapping shared by `_get` and `_post`. The body is read only
      when the HTTP layer reported no error, so a missing body is allowed
      only alongside a transport error. */
  function MapStatus(error: Option<Error>, body: Option<Body>): (r: Reply)
    requires error.Some? || body.Some?
    // a transport error is passed through unchanged, whatever the body says
    ensures error.Some? ==> r.error == error
    // otherwise an error is synthesised exactly when the status is truthy and not "OK"
    ensures error.None? ==> (r.error.Some? <==> StatusNotOk(body.value))
    ensures error.None? && body.value.Get("status") == Str("OK") ==> r.error.None?
    ensures error.None? && !Truthy(body.value.Get("status")) ==> r.error.None?
    // the synthesised message is the description, falling back to error_message
    ensures error.None? && r.error.Some? ==> r.error.value.StatusError?
    ensures error.None? && r.error.Some? && Truthy(body.value.Get("description")) ==>
      r.error.value.message == body.value.Get("description")
    ensures error.None? && r.error.Some? && !Truthy(body.value.Get("description")) ==>
      r.error.value.message == body.value.Get("error_message")
    // the data is the body, or an empty object when there is none
    ensures body.Some? ==> r.data == body.value
    ensures body.None? ==> r.data == EmptyBody
  {
    var err :=
      if error.None? && Truthy(body.value.Get("status")) && body.value.Get("status") != Str("OK")
      then Some(StatusError(Or(body.value.Get("description"), body.value.Get("error_message"))))
      else error;
    Reply(err, if body.Some? then body.value else EmptyBody)
  }

  /** `_get(path, params)`: the query string is appended after a "?" even when empty. */
  function GetRequest(codec: Codec, apiHost: string, path: string, params: Params): (r: Request)
    ensures r.Get?
    // the URL splits at the "?" after the path into the endpoint and the encoded query
    ensures |r.url| > |apiHost + path|
    ensures r.url[..|apiHost + path| + 1] == apiHost + path + "?"
    ensures r.url[|apiHost + path| + 1..] == codec.stringify(params)
  {
    Get(apiHost + path + "?" + codec.stringify(params))
  }

  /** `_post(path, opts)`: the form string handed to `request.post` is the
      encoding of the payload's parameters, with the payload's headers. */
  function PostRequest(codec: Codec, apiHost: string, path: string, opts: Payload): (r: Request)
    ensures r.Post?
    ensures r.url == apiHost + path
    ensures r.headers.key == opts.headers.key
    // whoever signed the payload's parameters, the signature checks against the form string passed on
    ensures forall secret :: Verifies(codec, secret, codec.stringify(opts.params), opts.headers.sign) ==>
      Verifies(codec, secret, r.form, r.headers.sign)
  {
    Post(apiHost + path, codec.stringify(opts.params), opts.headers)
  }
}
